=== FILE: README.md ===
# Bookstore checkout, modelled in Dafny

This project models the checkout and order pipeline of a Django bookstore
backend. Buyers hold a cart of book lines. Checkout turns the cart into an
order: it prices every line at the book's current price, stores one order
with the total and one order line per cart line, and then deletes the cart
and its items. Around checkout sit the buyer-scoped reads (order detail,
order list, cart list, cart item), the two role permissions (seller and
buyer) and the field rules and delete rules of users, categories and books.

Files:

- `wrappers.dfy`: `Option` and `Result`.
- `models.dfy` (module `Models`): users and their role, the price field,
  categories, books, and the delete rules.
  - The price field is a `DecimalField` with six digits, two of them after
    the point. It is modelled as a `Decimal` (sign, coefficient, places) and
    checked with Django's digit counting.
  - A stored price is an integer number of cents. Every price the field
    accepts fits in cents of absolute value at most 999999, and a number of
    cents fits the field exactly when it lies in that range.
- `permissions.dfy` (module `Permissions`): `IsSeller` and `IsBuyer` as
  predicates over the requesting principal.
- `views.dfy` (module `Views`): the buyer-scoped querysets and read views,
  pricing a cart, and the class `Shop`.
  - `Shop` holds the books, carts, cart items, orders and order lines as maps.
    It also holds the next free order id and order line id. `Shop.Checkout`
    changes these maps in place.
  - `CheckoutFixture` checks out the cart of the checkout test (two books at
    25.00 and 5.00, quantities 2 and 1). It gets 55.00, the buyer ends up with
    one order, no cart and no cart items, and a second checkout is not found.
    `EmptyCartCheckout` checks out a cart with no items. It gets an order at
    0.00 with no lines, and the cart is deleted.

Cart, CartItem, Order and OrderItem are not defined in `api/models.py`. Their
fields are taken from how `api/views.py:142-170` uses them: a cart has a
buyer, a cart item has a cart, a book and a quantity, an order has a buyer and
a total, and an order line has an order, a book, a quantity and a unit price.

The cart's items are read in no particular order, because the source's
queryset does not order them. The checkout picks them in any order.
`PriceCart` and `Shop.Checkout` return the visiting order as a ghost result.
The total equals `CartSum`, a sum over the set of items that does not depend
on the order (`CartSumRemove`).

The lookup `get_object_or_404(Cart, buyer=...)` raises an error other than
"not found" when a buyer has two carts. The model makes "at most one cart per
buyer" a precondition of checkout (`OneCartEach`), and the class keeps it.

The permission classes are the only gate in front of these views. The model
answers `Unauthorized` to a request with nobody signed in and `Forbidden` to a
signed-in user of the other role, as the REST framework does with token
authentication. It answers `NotFound` where the views call
`get_object_or_404`.

## Model

| member | source | states |
|---|---|---|
| `Models.CreateUser` | api/models.py:24-37 | A user row is stored exactly when the email is not in use and the role is `buyer` or `seller`. A taken email is refused as a duplicate. The stored row is the new id, the email and the requested role, or `buyer` when no role is given. Existing rows are kept. |
| `Models.CreateUserKeepsUsersValid` | api/models.py:35-37 | Creating a user keeps emails unique and every role one of the two choices. |
| `Models.UserWithEmail` | api/models.py:35-40 | The login lookup by email finds a user exactly when some user has that email, and the user it finds has it. |
| `Models.EmailIdentifiesUser` | api/models.py:35-40 | Because emails are unique, looking up a user's email finds that very user. |
| `Models.DigitCount` | api/models.py:53 | The digit count `r` of `n` is the smallest one with `n < 10^r`, as the decimal field counts digits. |
| `Models.FitsPriceField` | api/models.py:53 | The price field accepts a decimal with at most two fraction digits, at most six digits in all, and at most four before the point. |
| `Models.ToCents` | api/models.py:53 | The value in cents of a decimal with at most two fraction digits is 100 times the decimal's value, sign included. |
| `Models.FromCents` | api/models.py:53 | A number of cents is written with exactly two fraction digits. |
| `Models.FitsPriceFieldBound` | api/models.py:53 | Every decimal the price field accepts (two fraction digits, six digits in all) is at most 999999 cents in absolute value. |
| `Models.CentsRoundTrip` | api/models.py:53 | Writing cents as a decimal and reading it back gives the same cents. |
| `Models.FromCentsFits` | api/models.py:53 | A number of cents fits the price field if and only if its absolute value is at most 999999. |
| `Models.CreateBook` | api/models.py:48-56 | A book is stored exactly when its title and author are non-blank and within 100 and 50 characters, its price fits the field, its seller exists and its category (if any) exists. The stored book has exactly the given title, author, seller, category (possibly none) and description, the price in cents, and is available. Other books are kept. |
| `Models.DeleteCategory` | api/models.py:52 | Deleting a category deletes no book. Each book of that category gets a null category, and nothing else changes in any book. |
| `Models.DeleteUser` | api/models.py:51 | Deleting a user deletes exactly the books that user sells and leaves every other book as it was. |
| `Models.DeletesKeepReferences` | api/models.py:51-52 | After either delete rule, every book's seller and category still exist. |
| `Models.CreateBookKeepsReferences` | api/models.py:48-56 | Creating a book keeps every book's seller and category resolvable. |
| `Permissions.IsSeller` | api/permissions.py:8-9 | The seller permission holds exactly for a signed-in user whose role is `seller`. |
| `Permissions.IsBuyer` | api/permissions.py:16-17 | The buyer permission holds exactly for a signed-in user whose role is `buyer`. |
| `Permissions.AnonymousDenied` | api/permissions.py:8-17 | A request with nobody signed in passes neither permission, on any view. |
| `Permissions.RolesExclusive` | api/permissions.py:9-17 | No principal passes both the seller and the buyer permission. |
| `Permissions.ViewIrrelevant` | api/permissions.py:8-17 | Both permissions give the same answer for every view. |
| `Permissions.EveryUserHasOneRole` | api/permissions.py:9-17 | A signed-in user whose role is one of the declared choices passes exactly one of the two permissions. |
| `Views.RequireBuyer` | api/permissions.py:16-17 | The buyer gate lets a request through if and only if it passes `IsBuyer`, and then as the signed-in user. Nobody signed in gives `Unauthorized`. A signed-in non-buyer gives `Forbidden`. |
| `Views.CartQueryset` | api/views.py:123-125 | The cart list holds exactly the carts whose buyer is the requester, unchanged. |
| `Views.CartItemQueryset` | api/views.py:133-135 | The cart item queryset holds exactly the items whose cart belongs to the requester, unchanged. |
| `Views.OrderQueryset` | api/views.py:199-200 | The order list holds exactly the orders whose buyer is the requester, unchanged. |
| `Views.OrderObject` | api/views.py:189-194 | An order is retrieved if and only if its id exists and its buyer is the requester. Otherwise the answer is not found. |
| `Views.OrderObjectAgreesWithQueryset` | api/views.py:189-200 | The order detail view finds exactly the orders the order list shows, with the same contents. |
| `Views.ForeignOrderLooksMissing` | api/views.py:189-194 | Another buyer's order id and an id that does not exist get the same answer: not found. |
| `Views.OrderQuerysetsDisjoint` | api/views.py:199-200 | Two different buyers' order lists share no order. |
| `Views.CartItemInOwnCart` | api/views.py:133-135 | An item a buyer may touch always lies in one of that buyer's own carts. |
| `Views.OrderQuerysetInsert` | api/views.py:157-159 | Storing a new order under an unused id grows its buyer's order list by exactly one and leaves other buyers' lists as they were. |
| `Views.RetrieveOrder` | api/views.py:184-194 | The order detail view applies the buyer permission first (401 or 403). It then answers the requester's own order, or not found for any other id. |
| `Views.ListOrders` | api/views.py:196-200 | The order list view answers 401 with nobody signed in and 403 to a signed-in non-buyer. Otherwise it lists exactly the requester's orders, unchanged. |
| `Views.ListCarts` | api/views.py:115-125 | The cart list view answers 401 with nobody signed in and 403 to a signed-in non-buyer. Otherwise it lists exactly the requester's carts, unchanged. |
| `Views.RetrieveCartItem` | api/views.py:128-135 | The cart item view answers 401 with nobody signed in and 403 to a signed-in non-buyer. A buyer gets the item if and only if it is in one of their carts, and not found otherwise. |
| `Views.ItemIdsOf` | api/views.py:147 | The items of a cart are exactly the cart items whose cart is that cart. |
| `Views.CartSum` | api/views.py:144-148 | The sum of book price times quantity over a set of cart items, independent of the order the items are read in. |
| `Views.CartSumRemove` | api/views.py:147-148 | The sum of a cart's line prices does not depend on the order of the lines: any line may be taken out first. |
| `Views.SnapshotOf` | api/views.py:149-155 | A line's snapshot records its book, its quantity and the book's current price. Unit price times quantity is the line price. |
| `Views.OrderLines` | api/views.py:161-167 | Snapshots stored from id `first` occupy exactly the ids `first` to `first + n - 1`. Line `first + i` is snapshot `i` as a line of the order. |
| `Views.PriceCart` | api/views.py:144-155 | The first loop reads every item of the cart exactly once and records one snapshot per item at the book's current price. The running total is the sum of the snapshots and equals the cart's order-independent sum. |
| `Views.AppendOrderLines` | api/views.py:161-167 | The second loop adds exactly one order line per snapshot, under consecutive fresh ids, and keeps every existing line. |
| `Views.FixtureCartTotal` | api/tests.py:216-231 | The test cart (2 x 25.00 and 1 x 5.00) sums to 5500 cents, the 55.0 the test expects, and its two items are all the items there are. |
| `Views.TheBuyersCart` | api/views.py:142 | With one cart per buyer, the cart that is found is the buyer's whole cart queryset. Once it is deleted, the buyer has no cart. |
| `Views.TearDownKeepsItemsResolved` | api/views.py:169-170 | Deleting a cart's items and then the cart leaves every remaining item in an existing cart. |
| `Views.PlaceOrderKeepsLinesResolved` | api/views.py:157-167 | The lines of a newly stored order belong to an existing order, as do all earlier lines. |
| `Views.Shop.constructor` | api/tests.py:198-221 | A new store holds the given books, no carts, items, orders or order lines, and both id counters at zero. |
| `Views.Shop.PlaceOrder` | api/views.py:157-167 | One order of the buyer with the total is stored under a fresh id. Then one line of that order per snapshot is stored under fresh ids. Books, carts and cart items are unchanged, and the store stays consistent. |
| `Views.Shop.DeleteCart` | api/views.py:169-170 | Exactly the cart's items and then the cart are deleted. Nothing else changes, and the store stays consistent. |
| `Views.Shop.Checkout` | api/views.py:141-181 | See the notes after this table. |
| `Views.Shop.HandleCheckout` | api/views.py:138-181 | The checkout view refuses a non-buyer (401 or 403) without writing anything. For a buyer it does exactly what `Shop.Checkout` states. With no cart: not found, and nothing written. Otherwise: one new order for the buyer, so their order count grows by one. The order's total is the cart's sum and equals the sum of the snapshots. Every cart item is read exactly once and gets one order line at the current price. The cart and its items are deleted. |
| `Views.CheckoutFixture` | api/tests.py:198-240 | The checkout test: the fixture cart checks out as order 0 at 5500 cents, the buyer then has one order, no cart and no cart items, and a second checkout is not found. |
| `Views.EmptyCartCheckout` | api/views.py:144-170 | A cart with no items checks out at 0 cents with no order lines, and the cart is deleted. |

What `Views.Shop.Checkout` states:

- A buyer without a cart gets not found, and nothing is written.
- Otherwise:
  - exactly one new order is stored, for the buyer, under the next order id;
  - its total is the sum of price times quantity over the cart's items;
  - every item is read exactly once and snapshotted at the book's current price;
  - one order line is stored per snapshot;
  - the cart and exactly its items are gone, and the buyer has no cart left;
  - no book, other cart or earlier order changes;
  - the reply carries the stored id and total.

## Left out

- Transactions and concurrency are not modelled. The view wraps no transaction around its writes, and the model runs checkout as one sequential step. It makes no claim about rollback or about two checkouts racing.
- `Shop.Checkout`: requires at most one cart per buyer. With two carts, the source's lookup raises an error other than not found, and that error is not modelled.
- HTTP status codes become the `Error` datatype: `NotFound` is 404, `Unauthorized` is 401, `Forbidden` is 403. The split between 401 and 403 is the REST framework's behaviour with token authentication, which is not part of this model.
- Login, logout, registration, tokens and `authenticate` are not modelled. They are thin wrappers over library code.
- These are not modelled: the generic create, list, update and delete views of books and categories, the search filter, and pagination. They are library behaviour configured by the views.
- Adding to a cart, updating a cart item's quantity, and the serializers of carts, cart items and orders are not modelled. Their code is not part of this model, and neither is `CanRetrieveOrIsSeller`.
- These are not modelled: timestamps, images, `__str__`, phone number, address, and the length limits of category names and emails.
- `Models.CreateUser`: does not check the email's format or that it is non-blank. Django's email validator runs on form and serializer input, and its rules are library code that is not part of this model.
- `Models.DeleteUser`: deletes the user's books only. What happens to the user's carts and orders depends on the Cart and Order models, which are not part of this model.
- Decimals with a positive exponent (such as 1E+2) are not modelled. A `Decimal` has zero or more fraction digits.
- The digit limit of an order's total is not modelled, because the Order model is not part of this model. Totals are unbounded integers of cents.
- The choice, blank, length and decimal-digit checks (the role choices, the title and author limits of 100 and 50 characters, and the price's six digits with two after the point) run when Django validates a form or serializer, not when a row is saved directly. The model applies them on every create. A book saved directly with a price of three fraction digits is rounded or refused by the database, depending on the backend, and that path is not modelled.
- The book prices in the checkout test come from a fixture file that is not part of this model. 25.00 and 5.00 are one assignment that gives the 55.0 the test expects.

=== FILE: models.dfy ===
/**
 * The records of the bookstore (api/models.py): users with a role, categories,
 * and books with a fixed-point price, together with the field rules the model
 * declares and what deleting a category or a user does to the books.
 */
module Models {
  import opened Wrappers

  type UserId = nat
  type CategoryId = nat
  type BookId = nat

  // ---------------------------------------------------------------------------
  // Users
  // ---------------------------------------------------------------------------

  const BuyerType: string := "buyer"
  const SellerType: string := "seller"

  /** The values `user_type` may take, in the order the model declares them. */
  const UserTypeChoices: seq<string> := [BuyerType, SellerType]

  /** The value `user_type` takes when none is given. */
  const DefaultUserType: string := BuyerType

  /** A user account; `email` is the login identifier. */
  datatype User = User(id: UserId, email: string, userType: string)

  predicate IsUserTypeChoice(t: string) {
    t in UserTypeChoices
  }

  /** Every stored user has a declared role and is filed under its own id. */
  ghost predicate UsersWellFormed(users: map<UserId, User>) {
    forall id :: id in users ==> users[id].id == id && IsUserTypeChoice(users[id].userType)
  }

  /** The unique constraint on `email`. */
  ghost predicate EmailsUnique(users: map<UserId, User>) {
    forall a, b :: a in users && b in users && users[a].email == users[b].email ==> a == b
  }

  predicate EmailTaken(users: map<UserId, User>, email: string) {
    exists id :: id in users && users[id].email == email
  }

  /** Why a row is refused by the model's constraints. */
  datatype ModelError = DuplicateEmail | InvalidChoice | InvalidField | MissingReference

  /**
   * Inserting a user row under a fresh id: the email must not be in use, the
   * role must be one of the choices, and an absent role becomes the default.
   */
  function CreateUser(users: map<UserId, User>, id: UserId, email: string, userType: Option<string>)
    : (r: Result<map<UserId, User>, ModelError>)
    requires id !in users
    ensures r.Ok? <==> !EmailTaken(users, email) && (userType.None? || IsUserTypeChoice(userType.value))
    ensures EmailTaken(users, email) ==> r == Err(DuplicateEmail)
    ensures r.Ok? ==> r.value.Keys == users.Keys + {id}
    ensures r.Ok? ==> forall k :: k in users ==> r.value[k] == users[k]
    ensures r.Ok? ==> r.value[id] == User(id, email, if userType.Some? then userType.value else BuyerType)
    ensures r.Ok? ==> IsUserTypeChoice(r.value[id].userType)
  {
    var role := if userType.Some? then userType.value else DefaultUserType;
    if EmailTaken(users, email) then Err(DuplicateEmail)
    else if !IsUserTypeChoice(role) then Err(InvalidChoice)
    else Ok(users[id := User(id, email, role)])
  }

  /** Creating a user keeps emails unique and every role a declared choice. */
  lemma CreateUserKeepsUsersValid(users: map<UserId, User>, id: UserId, email: string, userType: Option<string>)
    requires id !in users
    requires EmailsUnique(users) && UsersWellFormed(users)
    ensures CreateUser(users, id, email, userType).Ok? ==>
              var users' := CreateUser(users, id, email, userType).value;
              EmailsUnique(users') && UsersWellFormed(users')
  {
  }

  /** The login lookup by `email`, the model's username field. */
  ghost function UserWithEmail(users: map<UserId, User>, email: string): (r: Option<UserId>)
    ensures r.Some? <==> EmailTaken(users, email)
    ensures r.Some? ==> r.value in users && users[r.value].email == email
  {
    if EmailTaken(users, email) then
      var id :| id in users && users[id].email == email; Some(id)
    else None
  }

  /** Because emails are unique, the email names exactly one account. */
  lemma EmailIdentifiesUser(users: map<UserId, User>, id: UserId)
    requires EmailsUnique(users) && id in users
    ensures UserWithEmail(users, users[id].email) == Some(id)
  {
  }

  // ---------------------------------------------------------------------------
  // Prices: DecimalField(max_digits=6, decimal_places=2)
  // ---------------------------------------------------------------------------

  const PriceMaxDigits: nat := 6
  const PriceDecimalPlaces: nat := 2

  /** A decimal number: sign, coefficient, and how many of its digits are fraction digits. */
  datatype Decimal = Decimal(negative: bool, coefficient: nat, places: nat)

  function Pow10(n: nat): (r: nat)
    ensures r >= 1
  {
    if n == 0 then 1 else 10 * Pow10(n - 1)
  }

  lemma {:induction false} Pow10Monotone(a: nat, b: nat)
    requires a <= b
    ensures Pow10(a) <= Pow10(b)
  {
    if a < b {
      Pow10Monotone(a, b - 1);
    }
  }

  /** The number of decimal digits of `n`; zero is written with one digit. */
  function DigitCount(n: nat): (r: nat)
    ensures r >= 1
    ensures n < Pow10(r)
    ensures r == 1 || Pow10(r - 1) <= n
  {
    if n < 10 then 1 else 1 + DigitCount(n / 10)
  }

  /** Digits in total, counting leading zeros of a pure fraction such as 0.05. */
  function TotalDigits(d: Decimal): nat {
    if d.places > DigitCount(d.coefficient) then d.places else DigitCount(d.coefficient)
  }

  /** The price field's validation: at most 2 fraction digits, 6 digits, 4 before the point. */
  predicate FitsPriceField(d: Decimal) {
    && d.places <= PriceDecimalPlaces
    && TotalDigits(d) <= PriceMaxDigits
    && TotalDigits(d) - d.places <= PriceMaxDigits - PriceDecimalPlaces
  }

  /** A stored price in cents: what a valid price field can hold. */
  predicate IsPriceCents(c: int) {
    -999_999 <= c <= 999_999
  }

  /** The stored value, in cents, of a decimal with at most two fraction digits. */
  function ToCents(d: Decimal): (c: int)
    requires d.places <= PriceDecimalPlaces
    ensures d.negative ==> c <= 0
    ensures !d.negative ==> c >= 0
    ensures c * Pow10(d.places) == (if d.negative then -(d.coefficient as int) else d.coefficient as int) * 100
  {
    assert Pow10(PriceDecimalPlaces - d.places) * Pow10(d.places) == 100 by {
      assert Pow10(1) == 10 && Pow10(2) == 100;
    }
    var magnitude := d.coefficient * Pow10(PriceDecimalPlaces - d.places);
    if d.negative then -magnitude else magnitude
  }

  /** The decimal with two fraction digits that a number of cents is written as. */
  function FromCents(c: int): (d: Decimal)
    ensures d.places == PriceDecimalPlaces
  {
    if c < 0 then Decimal(true, -c, PriceDecimalPlaces) else Decimal(false, c, PriceDecimalPlaces)
  }

  /** Every value the price field accepts fits in integer cents of at most six digits. */
  lemma FitsPriceFieldBound(d: Decimal)
    requires FitsPriceField(d)
    ensures IsPriceCents(ToCents(d))
  {
    var n := DigitCount(d.coefficient);
    Pow10Monotone(n, 4 + d.places);
    assert d.coefficient < Pow10(4 + d.places);
    if d.places == 0 {
      assert Pow10(4) == 10000 && Pow10(2) == 100;
      assert d.coefficient * 100 <= 999_900;
    } else if d.places == 1 {
      assert Pow10(5) == 100000 && Pow10(1) == 10;
      assert d.coefficient * 10 <= 999_990;
    } else {
      assert Pow10(6) == 1000000 && Pow10(0) == 1;
    }
  }

  /** Writing cents as a decimal and reading it back is the identity. */
  lemma CentsRoundTrip(c: int)
    ensures ToCents(FromCents(c)) == c
  {
  }

  /** A number of cents can be stored in the price field exactly when it has at most six digits. */
  lemma FromCentsFits(c: int)
    ensures FitsPriceField(FromCents(c)) <==> IsPriceCents(c)
  {
    var d := FromCents(c);
    var n := DigitCount(d.coefficient);
    assert Pow10(6) == 1000000;
    if IsPriceCents(c) {
      if n > 6 {
        Pow10Monotone(6, n - 1);
        assert false;
      }
    } else {
      if n <= 6 {
        Pow10Monotone(n, 6);
        assert false;
      }
    }
  }

  // ---------------------------------------------------------------------------
  // Categories and books
  // ---------------------------------------------------------------------------

  datatype Category = Category(name: string)

  /** A book; `price` is in cents, `category` may be absent. */
  datatype Book = Book(
    title: string,
    author: string,
    seller: UserId,
    category: Option<CategoryId>,
    price: int,
    description: Option<string>,
    isAvailable: bool)

  /** The field rules of a book: non-blank bounded title and author, a storable price. */
  predicate ValidBook(b: Book) {
    && 0 < |b.title| <= 100
    && 0 < |b.author| <= 50
    && IsPriceCents(b.price)
  }

  /** The users, categories and books tables together. */
  datatype Catalog = Catalog(
    users: map<UserId, User>,
    categories: map<CategoryId, Category>,
    books: map<BookId, Book>)

  /** Every book's seller exists and so does its category, when it has one. */
  ghost predicate ReferencesResolve(c: Catalog) {
    forall id :: id in c.books ==>
      && c.books[id].seller in c.users
      && (c.books[id].category.Some? ==> c.books[id].category.value in c.categories)
  }

  /**
   * Inserting a book under a fresh id: the fields are validated, the seller and
   * the category (if any) must exist, and the book starts out available.
   */
  function CreateBook(
    c: Catalog, id: BookId, title: string, author: string, seller: UserId,
    category: Option<CategoryId>, price: Decimal, description: Option<string>)
    : (r: Result<Catalog, ModelError>)
    requires id !in c.books
    ensures r.Ok? <==>
      && 0 < |title| <= 100 && 0 < |author| <= 50 && FitsPriceField(price)
      && seller in c.users && (category.Some? ==> category.value in c.categories)
    ensures r.Ok? ==> r.value.users == c.users && r.value.categories == c.categories
    ensures r.Ok? ==> r.value.books.Keys == c.books.Keys + {id}
    ensures r.Ok? ==> forall k :: k in c.books ==> r.value.books[k] == c.books[k]
    ensures r.Ok? ==> r.value.books[id] == Book(title, author, seller, category, ToCents(price), description, true)
    ensures r.Ok? ==> ValidBook(r.value.books[id])
  {
    if !(0 < |title| <= 100 && 0 < |author| <= 50 && FitsPriceField(price)) then Err(InvalidField)
    else if !(seller in c.users && (category.Some? ==> category.value in c.categories)) then Err(MissingReference)
    else
      FitsPriceFieldBound(price);
      var b := Book(title, author, seller, category, ToCents(price), description, true);
      Ok(c.(books := c.books[id := b]))
  }

  /** Deleting a category nulls the category of its books and deletes no book. */
  function DeleteCategory(c: Catalog, cat: CategoryId): (r: Catalog)
    ensures r.users == c.users && r.categories == c.categories - {cat}
    ensures r.books.Keys == c.books.Keys
    ensures forall id :: id in c.books && c.books[id].category == Some(cat) ==> r.books[id].category == None
    ensures forall id :: id in c.books ==> r.books[id].(category := c.books[id].category) == c.books[id]
    ensures forall id :: id in c.books && c.books[id].category != Some(cat) ==> r.books[id] == c.books[id]
  {
    var books := map id | id in c.books ::
      if c.books[id].category == Some(cat) then c.books[id].(category := None) else c.books[id];
    Catalog(c.users, c.categories - {cat}, books)
  }

  /** Deleting a user deletes exactly the books that user sells and leaves the rest as they were. */
  function DeleteUser(c: Catalog, u: UserId): (r: Catalog)
    ensures r.users == c.users - {u} && r.categories == c.categories
    ensures forall id :: id in r.books <==> id in c.books && c.books[id].seller != u
    ensures forall id :: id in r.books ==> r.books[id] == c.books[id]
  {
    var books := map id | id in c.books && c.books[id].seller != u :: c.books[id];
    Catalog(c.users - {u}, c.categories, books)
  }

  /** Both delete rules leave no book pointing at a row that is gone. */
  lemma DeletesKeepReferences(c: Catalog, cat: CategoryId, u: UserId)
    requires ReferencesResolve(c)
    ensures ReferencesResolve(DeleteCategory(c, cat))
    ensures ReferencesResolve(DeleteUser(c, u))
  {
  }

  /** Creating a book keeps every reference resolvable. */
  lemma CreateBookKeepsReferences(
    c: Catalog, id: BookId, title: string, author: string, seller: UserId,
    category: Option<CategoryId>, price: Decimal, description: Option<string>)
    requires id !in c.books && ReferencesResolve(c)
    ensures var r := CreateBook(c, id, title, author, seller, category, price, description);
            r.Ok? ==> ReferencesResolve(r.value)
  {
  }
}

=== FILE: permissions.dfy ===
/**
 * The two role permissions of the bookstore (api/permissions.py). Each one
 * looks only at the requesting principal; the view it is asked about is ignored.
 */
module Permissions {
  import opened Models

  /** Who is making the request: nobody signed in, or a user account. */
  datatype Principal = Anonymous | Authenticated(user: User)

  /** The views that the two permissions guard. */
  datatype Endpoint =
    BookCreateView | CartListView | CartUpdateDeleteView | CheckoutView | OrderView | OrderListView

  predicate IsAuthenticated(p: Principal) {
    p.Authenticated?
  }

  /** Sellers only: signed in, with role `seller`. */
  predicate IsSeller(p: Principal, view: Endpoint) {
    IsAuthenticated(p) && p.user.userType == SellerType
  }

  /** Buyers only: signed in, with role `buyer`. */
  predicate IsBuyer(p: Principal, view: Endpoint) {
    IsAuthenticated(p) && p.user.userType == BuyerType
  }

  /** Nobody who is not signed in passes either permission, whatever the view. */
  lemma AnonymousDenied(view: Endpoint)
    ensures !IsSeller(Anonymous, view) && !IsBuyer(Anonymous, view)
  {
  }

  /** No principal is both a seller and a buyer. */
  lemma RolesExclusive(p: Principal, v: Endpoint, w: Endpoint)
    ensures !(IsSeller(p, v) && IsBuyer(p, w))
  {
  }

  /** The answer is the same for every view. */
  lemma ViewIrrelevant(p: Principal, v: Endpoint, w: Endpoint)
    ensures IsSeller(p, v) == IsSeller(p, w)
    ensures IsBuyer(p, v) == IsBuyer(p, w)
  {
  }

  /** A signed-in user whose role is a declared choice passes exactly one of the two. */
  lemma EveryUserHasOneRole(u: User, view: Endpoint)
    requires IsUserTypeChoice(u.userType)
    ensures IsSeller(Authenticated(u), view) != IsBuyer(Authenticated(u), view)
  {
  }
}

=== FILE: views.dfy ===
/**
 * The buyer-facing views of the bookstore (api/views.py): the buyer-scoped
 * querysets over carts, cart items and orders, the order detail and list
 * views, and checkout, which turns the buyer's cart into an order.
 */
module Views {
  import opened Wrappers
  import opened Models
  import opened Permissions

  type CartId = nat
  type CartItemId = nat
  type OrderId = nat
  type OrderItemId = nat

  datatype Cart = Cart(buyer: UserId)
  datatype CartItem = CartItem(cart: CartId, book: BookId, quantity: nat)

  /** An order; `totalPrice` is in cents. */
  datatype Order = Order(buyer: UserId, totalPrice: int)

  /** A line of an order; `unitPrice` is the book's price in cents when the order was placed. */
  datatype OrderItem = OrderItem(order: OrderId, book: BookId, quantity: nat, unitPrice: int)

  /** A cart line as checkout records it before the order exists. */
  datatype Snapshot = Snapshot(book: BookId, quantity: nat, unitPrice: int)

  /** What a successful checkout answers: the new order's id and its total. */
  datatype Receipt = Receipt(orderId: OrderId, totalPrice: int)

  /** The failures of these views: no match, not signed in, wrong role. */
  datatype Error = NotFound | Unauthorized | Forbidden

  // ---------------------------------------------------------------------------
  // Permission gate
  // ---------------------------------------------------------------------------

  /**
   * The buyer permission as every view here applies it before doing anything:
   * a request without a signed-in user is refused as unauthorized, a signed-in
   * user of another role as forbidden, and a buyer proceeds as themself.
   */
  function RequireBuyer(p: Principal, view: Endpoint): (r: Result<UserId, Error>)
    ensures r.Ok? <==> IsBuyer(p, view)
    ensures r.Ok? ==> r.value == p.user.id
    ensures !IsAuthenticated(p) ==> r == Err(Unauthorized)
    ensures IsAuthenticated(p) && !IsBuyer(p, view) ==> r == Err(Forbidden)
  {
    if !IsAuthenticated(p) then Err(Unauthorized)
    else if !IsBuyer(p, view) then Err(Forbidden)
    else Ok(p.user.id)
  }

  // ---------------------------------------------------------------------------
  // Buyer-scoped querysets
  // ---------------------------------------------------------------------------

  /** The carts a buyer may see: those whose buyer is the requester. */
  function CartQueryset(carts: map<CartId, Cart>, requester: UserId): (r: map<CartId, Cart>)
    ensures forall id :: id in r <==> id in carts && carts[id].buyer == requester
    ensures forall id :: id in r ==> r[id] == carts[id]
  {
    map id | id in carts && carts[id].buyer == requester :: carts[id]
  }

  /** The cart items a buyer may touch: those in a cart of the requester. */
  function CartItemQueryset(carts: map<CartId, Cart>, items: map<CartItemId, CartItem>, requester: UserId)
    : (r: map<CartItemId, CartItem>)
    ensures forall id :: id in r <==>
      id in items && items[id].cart in carts && carts[items[id].cart].buyer == requester
    ensures forall id :: id in r ==> r[id] == items[id]
  {
    map id | id in items && items[id].cart in carts && carts[items[id].cart].buyer == requester :: items[id]
  }

  /** The orders a buyer may see: those whose buyer is the requester. */
  function OrderQueryset(orders: map<OrderId, Order>, requester: UserId): (r: map<OrderId, Order>)
    ensures forall id :: id in r <==> id in orders && orders[id].buyer == requester
    ensures forall id :: id in r ==> r[id] == orders[id]
  {
    map id | id in orders && orders[id].buyer == requester :: orders[id]
  }

  /** One order of the requester by id; anything else is not found. */
  function OrderObject(orders: map<OrderId, Order>, requester: UserId, orderId: OrderId)
    : (r: Result<Order, Error>)
    ensures r.Ok? <==> orderId in orders && orders[orderId].buyer == requester
    ensures r.Ok? ==> r.value == orders[orderId]
    ensures r.Err? ==> r.error == NotFound
  {
    if orderId in orders && orders[orderId].buyer == requester then Ok(orders[orderId]) else Err(NotFound)
  }

  /** The detail lookup finds exactly the orders the list shows, with the same contents. */
  lemma OrderObjectAgreesWithQueryset(orders: map<OrderId, Order>, requester: UserId, orderId: OrderId)
    ensures OrderObject(orders, requester, orderId).Ok? <==> orderId in OrderQueryset(orders, requester)
    ensures OrderObject(orders, requester, orderId).Ok? ==>
              OrderObject(orders, requester, orderId).value == OrderQueryset(orders, requester)[orderId]
  {
  }

  /** Another buyer's order id and an id that does not exist give the same answer. */
  lemma ForeignOrderLooksMissing(orders: map<OrderId, Order>, requester: UserId, foreign: OrderId, missing: OrderId)
    requires foreign in orders && orders[foreign].buyer != requester
    requires missing !in orders
    ensures OrderObject(orders, requester, foreign) == OrderObject(orders, requester, missing) == Err(NotFound)
  {
  }

  /** Two different buyers never see the same order. */
  lemma OrderQuerysetsDisjoint(orders: map<OrderId, Order>, a: UserId, b: UserId)
    requires a != b
    ensures OrderQueryset(orders, a).Keys !! OrderQueryset(orders, b).Keys
  {
  }

  /** A cart item a buyer may touch always lies in one of that buyer's carts. */
  lemma CartItemInOwnCart(carts: map<CartId, Cart>, items: map<CartItemId, CartItem>, requester: UserId, id: CartItemId)
    requires id in CartItemQueryset(carts, items, requester)
    ensures items[id].cart in CartQueryset(carts, requester)
  {
  }

  /**
   * Storing a new order under an unused id adds exactly one order to its
   * buyer's list and leaves every other buyer's list as it was.
   */
  lemma OrderQuerysetInsert(orders: map<OrderId, Order>, id: OrderId, o: Order, u: UserId)
    requires id !in orders
    ensures u == o.buyer ==> |OrderQueryset(orders[id := o], u)| == |OrderQueryset(orders, u)| + 1
    ensures u != o.buyer ==> OrderQueryset(orders[id := o], u) == OrderQueryset(orders, u)
  {
    var before := OrderQueryset(orders, u);
    var after := OrderQueryset(orders[id := o], u);
    if u == o.buyer {
      assert after.Keys == before.Keys + {id};
      assert |after.Keys| == |before.Keys| + 1;
    }
  }

  // ---------------------------------------------------------------------------
  // Read views, behind the buyer permission
  // ---------------------------------------------------------------------------

  /** The order detail view: permission first, then the requester's own order or not found. */
  function RetrieveOrder(orders: map<OrderId, Order>, p: Principal, orderId: OrderId): (r: Result<Order, Error>)
    ensures !IsAuthenticated(p) ==> r == Err(Unauthorized)
    ensures IsAuthenticated(p) && !IsBuyer(p, OrderView) ==> r == Err(Forbidden)
    ensures r.Ok? <==> IsBuyer(p, OrderView) && orderId in orders && orders[orderId].buyer == p.user.id
    ensures r.Ok? ==> r.value == orders[orderId]
    ensures IsBuyer(p, OrderView) && r.Err? ==> r.error == NotFound
  {
    match RequireBuyer(p, OrderView)
    case Err(e) => Err(e)
    case Ok(user) => OrderObject(orders, user, orderId)
  }

  /** The order list view: permission first, then exactly the requester's orders. */
  function ListOrders(orders: map<OrderId, Order>, p: Principal): (r: Result<map<OrderId, Order>, Error>)
    ensures r.Err? <==> !IsBuyer(p, OrderListView)
    ensures !IsAuthenticated(p) ==> r == Err(Unauthorized)
    ensures IsAuthenticated(p) && !IsBuyer(p, OrderListView) ==> r == Err(Forbidden)
    ensures r.Ok? ==> forall id :: id in r.value <==> id in orders && orders[id].buyer == p.user.id
    ensures r.Ok? ==> forall id :: id in r.value ==> r.value[id] == orders[id]
  {
    match RequireBuyer(p, OrderListView)
    case Err(e) => Err(e)
    case Ok(user) => Ok(OrderQueryset(orders, user))
  }

  /** The cart list view: permission first, then exactly the requester's carts. */
  function ListCarts(carts: map<CartId, Cart>, p: Principal): (r: Result<map<CartId, Cart>, Error>)
    ensures r.Err? <==> !IsBuyer(p, CartListView)
    ensures !IsAuthenticated(p) ==> r == Err(Unauthorized)
    ensures IsAuthenticated(p) && !IsBuyer(p, CartListView) ==> r == Err(Forbidden)
    ensures r.Ok? ==> forall id :: id in r.value <==> id in carts && carts[id].buyer == p.user.id
    ensures r.Ok? ==> forall id :: id in r.value ==> r.value[id] == carts[id]
  {
    match RequireBuyer(p, CartListView)
    case Err(e) => Err(e)
    case Ok(user) => Ok(CartQueryset(carts, user))
  }

  /** The cart item view: permission first, then an item of the requester's own cart or not found. */
  function RetrieveCartItem(carts: map<CartId, Cart>, items: map<CartItemId, CartItem>, p: Principal, id: CartItemId)
    : (r: Result<CartItem, Error>)
    ensures !IsAuthenticated(p) ==> r == Err(Unauthorized)
    ensures IsAuthenticated(p) && !IsBuyer(p, CartUpdateDeleteView) ==> r == Err(Forbidden)
    ensures r.Ok? <==>
      IsBuyer(p, CartUpdateDeleteView) && id in items && items[id].cart in carts
      && carts[items[id].cart].buyer == p.user.id
    ensures r.Ok? ==> r.value == items[id]
    ensures IsBuyer(p, CartUpdateDeleteView) && r.Err? ==> r.error == NotFound
  {
    match RequireBuyer(p, CartUpdateDeleteView)
    case Err(e) => Err(e)
    case Ok(user) =>
      var mine := CartItemQueryset(carts, items, user);
      if id in mine then Ok(mine[id]) else Err(NotFound)
  }

  // ---------------------------------------------------------------------------
  // Pricing a cart
  // ---------------------------------------------------------------------------

  /** The items of one cart. */
  function ItemIdsOf(items: map<CartItemId, CartItem>, cart: CartId): (r: set<CartItemId>)
    ensures forall id :: id in r <==> id in items && items[id].cart == cart
  {
    set id | id in items && items[id].cart == cart
  }

  /** What one cart line costs: the book's current price times the quantity. */
  function LinePrice(items: map<CartItemId, CartItem>, books: map<BookId, Book>, id: CartItemId): int {
    if id in items && items[id].book in books then books[items[id].book].price * items[id].quantity else 0
  }

  /** The sum of the line prices of a set of cart items, in no particular order. */
  ghost function CartSum(items: map<CartItemId, CartItem>, books: map<BookId, Book>, ids: set<CartItemId>): int
    decreases ids
  {
    if ids == {} then 0
    else
      var id :| id in ids;
      LinePrice(items, books, id) + CartSum(items, books, ids - {id})
  }

  /** Any item may be taken out of the sum first: the order of the lines does not matter. */
  lemma {:induction false} CartSumRemove(
    items: map<CartItemId, CartItem>, books: map<BookId, Book>, ids: set<CartItemId>, id: CartItemId)
    requires id in ids
    ensures CartSum(items, books, ids) == LinePrice(items, books, id) + CartSum(items, books, ids - {id})
    decreases ids
  {
    var first :| first in ids && CartSum(items, books, ids) ==
      LinePrice(items, books, first) + CartSum(items, books, ids - {first});
    if first != id {
      CartSumRemove(items, books, ids - {first}, id);
      CartSumRemove(items, books, ids - {id}, first);
      assert ids - {first} - {id} == ids - {id} - {first};
    }
  }

  /** The snapshot of a cart line: its book, its quantity and the book's current price. */
  function SnapshotOf(items: map<CartItemId, CartItem>, books: map<BookId, Book>, id: CartItemId): (s: Snapshot)
    requires id in items && items[id].book in books
    ensures s.unitPrice * s.quantity == LinePrice(items, books, id)
  {
    Snapshot(items[id].book, items[id].quantity, books[items[id].book].price)
  }

  /** The sum of unit price times quantity over a list of snapshots. */
  function SnapshotsTotal(lines: seq<Snapshot>): int {
    if lines == [] then 0
    else SnapshotsTotal(lines[..|lines| - 1]) + lines[|lines| - 1].unitPrice * lines[|lines| - 1].quantity
  }

  /** The order line a snapshot becomes. */
  function ToOrderItem(order: OrderId, s: Snapshot): OrderItem {
    OrderItem(order, s.book, s.quantity, s.unitPrice)
  }

  /**
   * The order lines a list of snapshots becomes when stored under consecutive
   * ids from `first`: the line at `first + i` is snapshot `i` of the order.
   */
  function OrderLines(order: OrderId, lines: seq<Snapshot>, first: nat): (m: map<OrderItemId, OrderItem>)
    ensures forall k :: k in m <==> first <= k < first + |lines|
    ensures forall i :: 0 <= i < |lines| ==> m[first + i] == ToOrderItem(order, lines[i])
  {
    if lines == [] then map[]
    else
      var n := |lines| - 1;
      OrderLines(order, lines[..n], first)[first + n := ToOrderItem(order, lines[n])]
  }

  /**
   * The first pass of checkout: read every item of a cart once, in whatever
   * order the store yields them, summing price times quantity and recording a
   * snapshot per line. The total is the cart's sum whatever that order is.
   */
  method PriceCart(items: map<CartItemId, CartItem>, books: map<BookId, Book>, itemIds: set<CartItemId>)
    returns (total: int, lines: seq<Snapshot>, ghost visited: seq<CartItemId>)
    requires forall id :: id in itemIds ==> id in items && items[id].book in books
    ensures forall id :: id in visited <==> id in itemIds
    ensures forall i, j :: 0 <= i < j < |visited| ==> visited[i] != visited[j]
    ensures |lines| == |visited|
    ensures forall i :: 0 <= i < |visited| ==> lines[i] == SnapshotOf(items, books, visited[i])
    ensures total == SnapshotsTotal(lines)
    ensures total == CartSum(items, books, itemIds)
  {
    var pending := itemIds;
    total, lines, visited := 0, [], [];
    while pending != {}
      invariant pending <= itemIds
      invariant forall id :: id in visited <==> id in itemIds && id !in pending
      invariant forall i, j :: 0 <= i < j < |visited| ==> visited[i] != visited[j]
      invariant |lines| == |visited|
      invariant forall i :: 0 <= i < |visited| ==> lines[i] == SnapshotOf(items, books, visited[i])
      invariant total == SnapshotsTotal(lines)
      invariant total + CartSum(items, books, pending) == CartSum(items, books, itemIds)
      decreases pending
    {
      var id :| id in pending;
      var price := books[items[id].book].price;
      var line := Snapshot(items[id].book, items[id].quantity, price);
      CartSumRemove(items, books, pending, id);
      total := total + price * items[id].quantity;
      assert (lines + [line])[..|lines|] == lines;
      lines := lines + [line];
      visited := visited + [id];
      pending := pending - {id};
    }
  }

  /**
   * The second pass of checkout: create one order line per snapshot in the
   * order-line table, each under the next free id.
   */
  method AppendOrderLines(
    table: map<OrderItemId, OrderItem>, next: nat, orderId: OrderId, lines: seq<Snapshot>)
    returns (table': map<OrderItemId, OrderItem>, next': nat)
    requires IdsBelow(table, next)
    ensures next' == next + |lines|
    ensures table' == table + OrderLines(orderId, lines, next)
    ensures IdsBelow(table', next')
  {
    table', next' := table, next;
    for i := 0 to |lines|
      invariant next' == next + i
      invariant table' == table + OrderLines(orderId, lines[..i], next)
    {
      assert lines[..i + 1][..i] == lines[..i];
      table' := table'[next' := ToOrderItem(orderId, lines[i])];
      next' := next' + 1;
    }
    assert lines[..|lines|] == lines;
  }

  // ---------------------------------------------------------------------------
  // The fixture cart of the checkout test: 2 x 25.00 and 1 x 5.00
  // ---------------------------------------------------------------------------

  const FixtureBooks: map<BookId, Book> := map[
    1 := Book("First book", "An author", 2, None, 2500, None, true),
    2 := Book("Second book", "An author", 2, None, 500, None, true)]

  const FixtureCart: CartId := 1

  const FixtureItems: map<CartItemId, CartItem> := map[
    1 := CartItem(FixtureCart, 1, 2),
    2 := CartItem(FixtureCart, 2, 1)]

  /** The fixture cart costs 55.00. */
  lemma FixtureCartTotal()
    ensures FixtureItems - ItemIdsOf(FixtureItems, FixtureCart) == map[]
    ensures CartSum(FixtureItems, FixtureBooks, ItemIdsOf(FixtureItems, FixtureCart)) == 5500
  {
    var ids := ItemIdsOf(FixtureItems, FixtureCart);
    assert ids == {1, 2};
    CartSumRemove(FixtureItems, FixtureBooks, ids, 1);
    assert ids - {1} == {2};
    CartSumRemove(FixtureItems, FixtureBooks, {2}, 2);
    assert {2} - {2} == {};
  }

  // ---------------------------------------------------------------------------
  // Integrity of the tables, and what checkout does to it
  // ---------------------------------------------------------------------------

  /** Every cart item belongs to an existing cart and names an existing book. */
  ghost predicate ItemsResolve(items: map<CartItemId, CartItem>, carts: map<CartId, Cart>, books: map<BookId, Book>) {
    forall id :: id in items ==> items[id].cart in carts && items[id].book in books
  }

  /** Every order line belongs to an existing order. */
  ghost predicate LinesResolve(lines: map<OrderItemId, OrderItem>, orders: map<OrderId, Order>) {
    forall k :: k in lines ==> lines[k].order in orders
  }

  /** Every id already handed out lies below the counter. */
  ghost predicate IdsBelow<V>(table: map<nat, V>, next: nat) {
    forall k :: k in table ==> k < next
  }

  /** A buyer has at most one cart. */
  ghost predicate OneCartEach(carts: map<CartId, Cart>) {
    forall a, b :: a in carts && b in carts && carts[a].buyer == carts[b].buyer ==> a == b
  }

  /**
   * Under one cart per buyer, a cart of the buyer is the whole of the buyer's
   * cart queryset, and once it is deleted the buyer has no cart left.
   */
  lemma TheBuyersCart(carts: map<CartId, Cart>, buyer: UserId, cid: CartId)
    requires OneCartEach(carts)
    requires cid in carts && carts[cid].buyer == buyer
    ensures CartQueryset(carts, buyer).Keys == {cid}
    ensures CartQueryset(carts - {cid}, buyer) == map[]
    ensures OneCartEach(carts - {cid})
  {
  }

  /** Deleting a cart together with all of its items leaves every remaining item resolvable. */
  lemma TearDownKeepsItemsResolved(
    items: map<CartItemId, CartItem>, carts: map<CartId, Cart>, books: map<BookId, Book>, cid: CartId)
    requires ItemsResolve(items, carts, books)
    ensures ItemsResolve(items - ItemIdsOf(items, cid), carts - {cid}, books)
  {
  }

  /** Order lines stored for a newly stored order resolve, as do the lines already there. */
  lemma {:induction false} PlaceOrderKeepsLinesResolved(
    table: map<OrderItemId, OrderItem>, orders: map<OrderId, Order>,
    orderId: OrderId, o: Order, lines: seq<Snapshot>, first: nat)
    requires LinesResolve(table, orders)
    ensures LinesResolve(table + OrderLines(orderId, lines, first), orders[orderId := o])
  {
    var added := OrderLines(orderId, lines, first);
    var placed := orders[orderId := o];
    forall k | k in table + added
      ensures (table + added)[k].order in placed
    {
      if k in added {
        assert added[first + (k - first)] == ToOrderItem(orderId, lines[k - first]);
      }
    }
  }

  // ---------------------------------------------------------------------------
  // The store and checkout
  // ---------------------------------------------------------------------------

  /** The tables checkout reads and writes. */
  class Shop {
    var books: map<BookId, Book>
    var carts: map<CartId, Cart>
    var cartItems: map<CartItemId, CartItem>
    var orders: map<OrderId, Order>
    var orderItems: map<OrderItemId, OrderItem>
    /** The ids the next order and the next order line receive. */
    var nextOrderId: nat
    var nextOrderItemId: nat

    /** Foreign keys resolve, and ids already handed out lie below the counters. */
    ghost predicate Valid()
      reads this
    {
      && ItemsResolve(cartItems, carts, books)
      && IdsBelow(orders, nextOrderId)
      && IdsBelow(orderItems, nextOrderItemId)
      && LinesResolve(orderItems, orders)
    }

    /** A store holding the given books and nothing else. */
    constructor (books: map<BookId, Book>)
      ensures Valid() && OneCartEach(carts)
      ensures this.books == books
      ensures carts == map[] && cartItems == map[] && orders == map[] && orderItems == map[]
      ensures nextOrderId == 0 && nextOrderItemId == 0
    {
      this.books := books;
      carts, cartItems := map[], map[];
      orders, orderItems := map[], map[];
      nextOrderId, nextOrderItemId := 0, 0;
    }

    /**
     * Stores one order of the buyer with the given total under the next order
     * id, then one line of that order per snapshot under the next line ids.
     */
    method PlaceOrder(buyer: UserId, total: int, lines: seq<Snapshot>) returns (orderId: OrderId)
      requires Valid()
      modifies this
      ensures Valid()
      ensures orderId == old(nextOrderId) && orderId !in old(orders)
      ensures orders == old(orders)[orderId := Order(buyer, total)] && nextOrderId == orderId + 1
      ensures old(nextOrderItemId) !in old(orderItems)
      ensures orderItems == old(orderItems) + OrderLines(orderId, lines, old(nextOrderItemId))
      ensures nextOrderItemId == old(nextOrderItemId) + |lines|
      ensures books == old(books) && carts == old(carts) && cartItems == old(cartItems)
    {
      orderId := nextOrderId;
      var o := Order(buyer, total);
      PlaceOrderKeepsLinesResolved(orderItems, orders, orderId, o, lines, nextOrderItemId);
      var rows, next := AppendOrderLines(orderItems, nextOrderItemId, orderId, lines);
      orders, nextOrderId := orders[orderId := o], nextOrderId + 1;
      orderItems, nextOrderItemId := rows, next;
    }

    /** Deletes the items of a cart and then the cart itself. */
    method DeleteCart(cid: CartId)
      requires Valid() && OneCartEach(carts)
      modifies this
      ensures Valid() && OneCartEach(carts)
      ensures carts == old(carts) - {cid}
      ensures cartItems == old(cartItems) - old(ItemIdsOf(cartItems, cid))
      ensures books == old(books) && orders == old(orders) && orderItems == old(orderItems)
      ensures nextOrderId == old(nextOrderId) && nextOrderItemId == old(nextOrderItemId)
    {
      TearDownKeepsItemsResolved(cartItems, carts, books, cid);
      cartItems := cartItems - ItemIdsOf(cartItems, cid);
      carts := carts - {cid};
    }

    /**
     * Checkout for a signed-in buyer. Without a cart it fails with not found
     * and changes nothing. Otherwise it prices every line of the cart at the
     * book's current price, stores one order with that total and one order
     * line per cart line, deletes the cart's items and then the cart, and
     * answers the new order's id and total. `visited` is the order in which
     * the cart's lines were read and `snapshots` what was recorded for them.
     */
    method Checkout(buyer: UserId)
      returns (r: Result<Receipt, Error>, ghost cart: CartId,
               ghost visited: seq<CartItemId>, ghost snapshots: seq<Snapshot>)
      requires Valid() && OneCartEach(carts)
      modifies this
      ensures Valid() && OneCartEach(carts)
      ensures books == old(books)
      // no cart: not found, and nothing is written
      ensures r.Err? <==> old(CartQueryset(carts, buyer)) == map[]
      ensures r.Err? ==> r.error == NotFound && unchanged(this)
      // the cart that was consumed is gone, with its items, and nothing else is
      ensures r.Ok? ==> old(CartQueryset(carts, buyer)).Keys == {cart}
      ensures r.Ok? ==> carts == old(carts) - {cart} && CartQueryset(carts, buyer) == map[]
      ensures r.Ok? ==> cartItems == old(cartItems) - old(ItemIdsOf(cartItems, cart))
      // exactly one new order, for the buyer, priced at the sum of the lines
      ensures r.Ok? ==> r.value.orderId == old(nextOrderId) && r.value.orderId !in old(orders)
      ensures r.Ok? ==> orders == old(orders)[r.value.orderId := Order(buyer, r.value.totalPrice)]
      ensures r.Ok? ==> |OrderQueryset(orders, buyer)| == |OrderQueryset(old(orders), buyer)| + 1
      ensures r.Ok? ==> r.value.totalPrice == CartSum(old(cartItems), books, old(ItemIdsOf(cartItems, cart)))
      // every line of the cart read once, and snapshotted at the current price
      ensures r.Ok? ==> forall id :: id in visited <==> id in old(ItemIdsOf(cartItems, cart))
      ensures r.Ok? ==> forall i, j :: 0 <= i < j < |visited| ==> visited[i] != visited[j]
      ensures r.Ok? ==> |snapshots| == |visited|
      ensures r.Ok? ==> forall i :: 0 <= i < |visited| ==> snapshots[i] == SnapshotOf(old(cartItems), books, visited[i])
      ensures r.Ok? ==> r.value.totalPrice == SnapshotsTotal(snapshots)
      // exactly one new order line per snapshot, all of the new order
      ensures r.Ok? ==> nextOrderItemId == old(nextOrderItemId) + |snapshots|
      ensures r.Ok? ==> old(nextOrderItemId) !in old(orderItems)
      ensures r.Ok? ==> orderItems == old(orderItems) + OrderLines(r.value.orderId, snapshots, old(nextOrderItemId))
    {
      if !exists c :: c in carts && carts[c].buyer == buyer {
        r, cart, visited, snapshots := Err(NotFound), 0, [], [];
        return;
      }
      var cid :| cid in carts && carts[cid].buyer == buyer;
      cart := cid;
      TheBuyersCart(carts, buyer, cid);

      // Walk the cart's items, accumulating the total and a snapshot per line.
      var total, lines;
      total, lines, visited := PriceCart(cartItems, books, ItemIdsOf(cartItems, cid));
      snapshots := lines;

      // One order for the buyer with its lines, then the cart goes.
      OrderQuerysetInsert(orders, nextOrderId, Order(buyer, total), buyer);
      var orderId := PlaceOrder(buyer, total, lines);
      DeleteCart(cid);
      r := Ok(Receipt(orderId, total));
    }

    /** The checkout view: the buyer permission first, then checkout for the requester. */
    method HandleCheckout(p: Principal)
      returns (r: Result<Receipt, Error>, ghost cart: CartId,
               ghost visited: seq<CartItemId>, ghost snapshots: seq<Snapshot>)
      requires Valid() && OneCartEach(carts)
      modifies this
      ensures Valid() && OneCartEach(carts)
      ensures books == old(books)
      // not a buyer: refused by the permission, and nothing is written
      ensures !IsBuyer(p, CheckoutView) ==> unchanged(this) && r == Err(RequireBuyer(p, CheckoutView).error)
      // a buyer: exactly what checkout for the requester does
      ensures IsBuyer(p, CheckoutView) ==> (r.Err? <==> old(CartQueryset(carts, p.user.id)) == map[])
      ensures IsBuyer(p, CheckoutView) && r.Err? ==> r.error == NotFound && unchanged(this)
      ensures r.Ok? ==> IsBuyer(p, CheckoutView)
      ensures r.Ok? ==> old(CartQueryset(carts, p.user.id)).Keys == {cart}
      ensures r.Ok? ==> carts == old(carts) - {cart} && CartQueryset(carts, p.user.id) == map[]
      ensures r.Ok? ==> cartItems == old(cartItems) - old(ItemIdsOf(cartItems, cart))
      ensures r.Ok? ==> r.value.orderId == old(nextOrderId) && r.value.orderId !in old(orders)
      ensures r.Ok? ==> orders == old(orders)[r.value.orderId := Order(p.user.id, r.value.totalPrice)]
      ensures r.Ok? ==> |OrderQueryset(orders, p.user.id)| == |OrderQueryset(old(orders), p.user.id)| + 1
      ensures r.Ok? ==> r.value.totalPrice == CartSum(old(cartItems), books, old(ItemIdsOf(cartItems, cart)))
      ensures r.Ok? ==> forall id :: id in visited <==> id in old(ItemIdsOf(cartItems, cart))
      ensures r.Ok? ==> forall i, j :: 0 <= i < j < |visited| ==> visited[i] != visited[j]
      ensures r.Ok? ==> |snapshots| == |visited|
      ensures r.Ok? ==> forall i :: 0 <= i < |visited| ==> snapshots[i] == SnapshotOf(old(cartItems), books, visited[i])
      ensures r.Ok? ==> r.value.totalPrice == SnapshotsTotal(snapshots)
      ensures r.Ok? ==> nextOrderItemId == old(nextOrderItemId) + |snapshots|
      ensures r.Ok? ==> orderItems == old(orderItems) + OrderLines(r.value.orderId, snapshots, old(nextOrderItemId))
    {
      var gate := RequireBuyer(p, CheckoutView);
      if gate.Err? {
        r, cart, visited, snapshots := Err(gate.error), 0, [], [];
        return;
      }
      r, cart, visited, snapshots := Checkout(gate.value);
    }
  }

  /**
   * The checkout test as a client of the store: the fixture cart checks out at
   * 55.00, the buyer ends up with one order and no cart, and checking out again
   * is not found.
   */
  method CheckoutFixture() {
    var shop := new Shop(FixtureBooks);
    shop.carts := map[FixtureCart := Cart(1)];
    shop.cartItems := FixtureItems;
    assert FixtureCart in CartQueryset(shop.carts, 1);
    var r;
    ghost var cart, visited, snapshots;
    r, cart, visited, snapshots := shop.Checkout(1);
    assert cart == FixtureCart;
    FixtureCartTotal();
    assert r.Ok? && r.value.orderId == 0;
    assert r.value.totalPrice == 5500;
    assert |OrderQueryset(shop.orders, 1)| == 1;
    assert CartQueryset(shop.carts, 1) == map[];
    assert shop.cartItems == map[];
    var again, _, _, _ := shop.Checkout(1);
    assert again == Err(NotFound);
  }

  /**
   * A cart without items still checks out: the order is placed at 0.00 with
   * no order lines, and the cart is deleted.
   */
  method EmptyCartCheckout() {
    var shop := new Shop(FixtureBooks);
    shop.carts := map[FixtureCart := Cart(1)];
    assert FixtureCart in CartQueryset(shop.carts, 1);
    var r;
    ghost var cart, visited, snapshots;
    r, cart, visited, snapshots := shop.Checkout(1);
    assert cart == FixtureCart;
    assert ItemIdsOf(map[], FixtureCart) == {};
    assert r.Ok? && r.value.totalPrice == 0;
    assert shop.orderItems == map[];
    assert shop.carts == map[] && |shop.orders| == 1;
  }
}

=== FILE: wrappers.dfy ===
/** Option and Result, shared by the other modules. */
module Wrappers {

  datatype Option<+T> = None | Some(value: T)

  datatype Result<+T, +E> = Ok(value: T) | Err(error: E)
}
